=== FILE: README.md ===
# Marine experiments API — a Dafny model of its request handling

The marine experiments service is a small Flask REST API over a PostgreSQL
database of animal subjects, experiment types and scored experiments. Its
behaviour, once the database and the web framework are set aside, is four
pieces of request handling in `marine_experiments/api.py`. This project
models them as pure functions and proves what they promise:

- **GET /experiment**: the `type` and `score_over` query arguments are
  validated. The accepted ones are turned into a filter clause. That clause
  is a list of predicates joined by AND, always ordered by experiment date,
  most recent first.
- **POST /experiment**: the JSON body goes through an ordered chain of
  checks (`subject_id`, `experiment_type`, `score`, `experiment_date`). The
  first failing check picks the 400 message. Python's truthiness and
  `isinstance` rules are kept as they are: `0` reads as missing, and `true`
  counts as the integer 1. The type name is then resolved in the store and
  the INSERT is attempted. It stores the experiment unless the database
  refuses the row (a boolean field, an unknown subject or a taken
  identifier), which the handler does not catch.
- **GET /subject**: subjects are sorted by date of birth, most recent
  first, with Python's stable `sorted(..., reverse=True)`. A birth date that
  `strptime` cannot re-read raises instead.
- **DELETE /experiment/<id>**: removes one experiment from a finite map,
  or answers 404 naming the identifier.

Modules:

| file | module | role |
|---|---|---|
| outcomes.dfy | `Outcomes` | `Option` and `Result` |
| text.dfy | `Text` | `str.lower`, `int(str)` and the whitespace it skips, `str(int)` |
| dates.dfy | `Dates` | `strptime(s, '%Y-%m-%d')`, `YYYY-MM-DD` rendering, calendar |
| json_values.dfy | `JsonValues` | decoded JSON, truthiness, `isinstance(v, int)`, `dict.get` |
| http.dfy | `Http` | replies as status and body |
| records.dfy | `Records` | entities, the abstract store, `VALID_TYPES` |
| list_subjects.dfy | `ListSubjects` | GET /subject |
| list_experiments.dfy | `ListExperiments` | GET /experiment and the filter clause of `get_experiments` |
| delete_experiment.dfy | `DeleteExperiment` | `delete_experiments` |
| create_experiment.dfy | `CreateExperiment` | POST /experiment |
| lifecycle.dfy | `Lifecycle` | how create and delete relate |

The database is an abstract `Store`: subjects and experiment types are
sequences in table order, and experiments are a map from identifier to row.
The identifier the database would generate for a new experiment is a
parameter of `Create`. So is the text `datetime.now().strftime("%Y-%m-%d")`.
An exception the handler does not catch is a reply with status 500 and an
`Unhandled` body. That covers a non-object body, a non-string
`experiment_date`, a boolean sent to an integer column, a foreign-key or
unique-key violation on insert, a query the database cannot parse, and a
birth date outside the years 1 to 9999.

Quirks of the code that the model keeps:

- A score of 0 is reported as a missing key (line 180), because the
  presence test is Python truthiness. The same holds for a `subject_id` of
  0 (line 166).
- `True` is an `int` in Python, so `{"subject_id": true}` passes the checks
  of lines 166-171 as subject 1, and `"score": true` passes as score 1.
  psycopg2 then sends an SQL boolean to an integer column. The INSERT fails
  and the client gets a server error.
- The type-lookup message on line 202 has no final full stop. The
  validation messages of lines 167-188 all end with one.

An empty `score_over` (`?score_over=`) is not handled as the code evidently
intends. An empty `type` means no type filter: it fails the truthiness test
on line 128 and again on line 61. Line 133 applies the same test to
`score_over`, so an empty value was evidently meant to mean no score filter
too. Instead, line 65 tests `is not None`. That test lets `""` through, and
a score comparison with nothing on its right-hand side is appended. This is
recorded under Findings. The endpoint `ListQuery` uses the corrected reading.

## Model

| member | source | states |
|---|---|---|
| `Text.ParseIntRoundTrip` | marine_experiments/api.py:135 | `int(str(i)) == i` for every integer: the `int()` conversion used on `score_over` reads back every rendered integer |
| `Text.ParseIntIgnoresPadding` | marine_experiments/api.py:135 | `int()` ignores the whitespace it skips (space, \t \n \v \f \r) before and after the number |
| `Text.ParseInt` | marine_experiments/api.py:135 | `int(s)`: its own contract says only that an accepted text contains a digit; the lemmas below state what it accepts and refuses |
| `Text.ParseIntAcceptsOnlyNumerals` | marine_experiments/api.py:135-139 | an accepted text, once stripped, is non-empty and made of digits and inner underscores, with at most a sign in front |
| `Text.RefusedByStray` | marine_experiments/api.py:135-139 | in the text `int()` converts once surrounding whitespace is stripped, a character past the first that is neither a digit nor an underscore (an inner blank included) makes it raise the `ValueError` that becomes a 400 |
| `Text.RefusedByDoubleUnderscore` | marine_experiments/api.py:135-139 | two underscores in a row make `int()` raise |
| `Text.ReadsSignedDigitGroups` | marine_experiments/api.py:135 | a digit group is read as its decimal value, unsigned or after `+`, and negated after `-` |
| `Text.ParseIntRefusesNonIntegers` | marine_experiments/api.py:135-139 | `"1.5"`, `"1e2"`, `"5 5"` and `"1__0"` are refused |
| `Text.ParseIntRefusesSeparatorPadding` | marine_experiments/api.py:135-139 | `"\x1c5"` and `"5\x1f"` are refused: `int()` does not skip the separators that `str.isspace` counts as whitespace |
| `Text.ParseIntReadsPlusSign` | marine_experiments/api.py:135 | `"+07"` reads as 7 |
| `Text.ParseIntReadsMinusSign` | marine_experiments/api.py:135 | `"-3"` reads as -3 |
| `Text.ParseIntReadsSeparator` | marine_experiments/api.py:135 | `"1_0"` reads as 10 |
| `Text.Lower` | marine_experiments/api.py:129 | `str.lower` on ASCII: same length, no upper-case letter left, and each character agrees with the input's ignoring case |
| `Text.NatToString` | marine_experiments/api.py:98 | rendering a natural number gives digits only, with no leading zero, whose decimal value is the number |
| `Dates.ParseDate` | marine_experiments/api.py:186 | every text `strptime(..., '%Y-%m-%d')` accepts names a date that exists (year 1-9999, day within its month) |
| `Dates.FormatDate` | marine_experiments/api.py:164 | `strftime`/`TO_CHAR` rendering: ten characters, dashes at positions 4 and 7, digits elsewhere; `Dates.ParseFormatRoundTrip` ties it to the parser |
| `Dates.ParseFormatRoundTrip` | marine_experiments/api.py:164 | the `YYYY-MM-DD` rendering of a valid date (today's default, or a stored date) parses back to that date |
| `Dates.ParsedCanonicalText` | marine_experiments/api.py:186 | an accepted ten-character text with no blank before the day is exactly the rendering of the date it names |
| `Dates.FormatInjective` | marine_experiments/api.py:117 | two valid dates render alike only if they are equal, so sorting by the parsed rendering sorts by the date |
| `ListSubjects.BornOn` | marine_experiments/api.py:116-118 | the subjects of a sequence born on a given date: exactly its members with that birth date, never more of them than the sequence has |
| `ListSubjects.SortByBirthDesc` | marine_experiments/api.py:116-118 | the sorted subjects are a permutation of the input and non-increasing in date of birth |
| `ListSubjects.SortIsStable` | marine_experiments/api.py:116-118 | for every birth date, the subjects born on it keep their input order (`sorted` with `reverse=True` is stable) |
| `ListSubjects.StableSortUnique` | marine_experiments/api.py:116-118 | a permutation that is sorted descending and stable is unique, so the sort's output is fully determined |
| `ListSubjects.GetSubjects` | marine_experiments/api.py:112-119 | GET /subject answers 200 iff every birth date has a year from 1 to 9999, and then returns every subject, most recently born first, stable on equal dates; otherwise 500 |
| `ListExperiments.BuildQuery` | marine_experiments/api.py:58-72 | no filters give no predicates; each present filter adds exactly one predicate, type before score; the date-descending order is always there |
| `ListExperiments.BuildQuerySelects` | marine_experiments/api.py:58-72 | the clause selects a row exactly when it matches the type ignoring case (if given) AND its percentage is strictly above the bound (if given) |
| `ListExperiments.BuildQueryWellFormed` | marine_experiments/api.py:65-72 | the assembled query can be run exactly when the score bound, if there is one, is a number |
| `ListExperiments.NoFiltersSelectAll` | marine_experiments/api.py:69-72 | without filters there is no WHERE clause and every row is selected |
| `ListExperiments.CheckType` | marine_experiments/api.py:128-131 | `type` is accepted iff it is absent, empty, or lower-cases to one of intelligence/obedience/aggression; a non-empty accepted value is passed on lower-cased; otherwise the 400 message for `type` |
| `ListExperiments.CheckScoreAsWritten` | marine_experiments/api.py:133-139 | as written: a non-empty `score_over` is accepted iff `int()` gives a value in [0, 100] and then becomes that integer bound; an absent one gives no bound; an empty one passes on as raw text |
| `ListExperiments.CheckScore` | marine_experiments/api.py:133-139 | `score_over` is accepted iff absent, empty or an integer in [0, 100]; an accepted non-empty value becomes that integer bound, an absent or empty one means no bound |
| `ListExperiments.ListQueryAsWritten` | marine_experiments/api.py:125-142 | as written: 400 iff an argument is bad, 500 iff the type is acceptable and `score_over` is empty, and the same reply as `ListQuery` (messages included) whenever `score_over` is not empty or the type is bad |
| `ListExperiments.EmptyScoreOverIsMalformed` | marine_experiments/api.py:65-74 | as written, `?score_over=` with an acceptable type passes validation, yields a score comparison with no number on its right-hand side, and the client gets 500 |
| `ListExperiments.ListQuery` | marine_experiments/api.py:125-142 | GET /experiment answers 200 iff both arguments are acceptable, and the query is then well formed; a bad `type` gives the `type` message even when `score_over` is bad too, and otherwise a 400 carries the `score_over` message |
| `ListExperiments.ListQuerySelects` | marine_experiments/api.py:125-142 | an accepted request selects exactly the rows of the requested type (ignoring case) whose percentage is strictly above `score_over` |
| `ListExperiments.TypeArgIgnoresCase` | marine_experiments/api.py:128-131 | `type=Intelligence` and `type=intelligence` get the same reply |
| `ListExperiments.SeparatorPaddedScoreRefused` | marine_experiments/api.py:133-139 | `?score_over=%1C5` with an acceptable type gets 400 with the `score_over` message |
| `ListExperiments.ScoreOverHundredSelectsNothing` | marine_experiments/api.py:66 | `score_over=100` is strict: no row at or below 100% is selected |
| `DeleteExperiment.Delete` | marine_experiments/api.py:94-109 | an absent id gives 404 naming it and leaves the store unchanged; a present id gives 200 with its id and date, removes exactly that key and keeps every other entry |
| `DeleteExperiment.NotFoundMessageNamesId` | marine_experiments/api.py:98 | the 404 message reads back the requested identifier between its prefix and final full stop |
| `DeleteExperiment.DeletePreservesReferences` | marine_experiments/api.py:101-107 | deleting keeps every remaining experiment's subject and type references valid |
| `DeleteExperiment.DeleteTwiceIsNotFound` | marine_experiments/api.py:94-98 | deleting the same id again answers 404 and changes nothing |
| `CreateExperiment.CheckSubjectId` | marine_experiments/api.py:166-171 | passes iff `subject_id` is an int (bools included) and > 0; missing, null, 0 or another falsy value gives the missing-key message, a truthy non-int or a negative value the invalid-value message |
| `CreateExperiment.CheckExperimentType` | marine_experiments/api.py:173-178 | passes iff `experiment_type` is a string that lower-cases to a valid type; falsy gives the missing-key message, anything else the invalid-value message |
| `CreateExperiment.CheckScore` | marine_experiments/api.py:180-183 | passes iff `score` is an int > 0; 0 and other falsy values give the missing-key message, a non-int or negative value the invalid-value message |
| `CreateExperiment.CheckDate` | marine_experiments/api.py:185-188 | a present non-string raises (500); a string passes iff `strptime` accepts it, and an absent date iff today's text parses; the accepted date is the one parsed from that text, and it is valid |
| `CreateExperiment.ValidateBody` | marine_experiments/api.py:157-188 | a falsy body gives "Request body must be JSON", a truthy non-object raises; the body passes iff every field check passes, and then the record carries those values, with the date `CheckDate` accepted; once subject, type and score pass, a refused date gives the `experiment_date` message and a non-string date raises |
| `CreateExperiment.SubjectFailureDecides` | marine_experiments/api.py:166-171 | once `subject_id` fails, no other field and not the clock changes the answer |
| `CreateExperiment.TypeFailureDecides` | marine_experiments/api.py:173-178 | after a good `subject_id`, a failing `experiment_type` decides the answer whatever score and date are |
| `CreateExperiment.ScoreFailureDecides` | marine_experiments/api.py:180-183 | after good subject and type, a failing `score` decides the answer whatever the date is |
| `CreateExperiment.ZeroSubjectIsMissing` | marine_experiments/api.py:166-167 | a `subject_id` of 0 is reported as a missing key |
| `CreateExperiment.ZeroScoreIsMissing` | marine_experiments/api.py:180-181 | a `score` of 0 is reported as a missing key |
| `CreateExperiment.TrueSubjectIsOne` | marine_experiments/api.py:168-171 | `"subject_id": true` passes the int check and is subject 1 |
| `CreateExperiment.TrueSubjectIsNotStored` | marine_experiments/api.py:206-210 | a body with `"subject_id": true` that passes validation is still not created, and the store is unchanged |
| `CreateExperiment.DefaultDateIsToday` | marine_experiments/api.py:164 | without `experiment_date` an otherwise valid body is dated today |
| `CreateExperiment.ResolveType` | marine_experiments/api.py:194-204 | the lookup finds a type whose name matches ignoring case, and finds none only when no row matches |
| `CreateExperiment.ResolveTypeIgnoresCase` | marine_experiments/api.py:197 | the lookup depends on the requested name only through its lower-cased form |
| `CreateExperiment.ValidateIgnoresTypeCase` | marine_experiments/api.py:177 | bodies that differ only in the case of `experiment_type` get the same verdict |
| `CreateExperiment.Create` | marine_experiments/api.py:154-215 | a validation failure gives 400 with its message (500 if it raised); an unresolvable type gives 400 with the lookup message; a boolean field, unknown subject or taken id gives 500; otherwise 201. Every failure leaves the store unchanged; 201 adds exactly one row, with the validated values and the resolved type, and references stay valid |
| `CreateExperiment.CoveredTypesResolve` | marine_experiments/api.py:199-202 | when the store lists all three type names, a validated body is never refused by the lookup |
| `CreateExperiment.CreateIgnoresTypeCase` | marine_experiments/api.py:194-199 | `experiment_type` "Intelligence" and "intelligence" give the same status and the same store |
| `Lifecycle.CreateThenDelete` | marine_experiments/api.py:101-109 | deleting the experiment just created returns its id and date and restores the store exactly |
| `Lifecycle.RejectedCreateLeavesStore` | marine_experiments/api.py:166-188 | a body that fails validation inserts nothing |

## Left out

- The Flask application, routing, `request`, `jsonify` and `app.run`: replies are `(status, body)` values, and the request body is taken as already decoded JSON. A body Flask cannot decode is not modelled.
- psycopg2, SQL execution, the joins, `commit` and the global connection: the database is the abstract `Store`, and the listing query is a structure, not text. The rows a query returns and their ordering are left to the database. `Query.orderBy` only records that the date-descending order is requested.
- After an uncaught database error the shared connection stays in an aborted transaction. Later requests on it would fail too; this is not modelled.
- The score percentage `ROUND(score / max_score * 100, 2) || '%'`: the database's NUMERIC arithmetic computes it. A row carries its rounded percentage in hundredths.
- SQL string interpolation and its injection hazard: predicates are abstract. Only their comparison meaning is kept.
- `datetime.now()`: today's date text is a parameter. `FormatDate` pads years below 1000 to four digits, which a real clock never needs.
- The debug `print` on line 161.
- Text.Lower: models `str.lower` on ASCII only. No other character lower-cases to a letter of the three type names, so which values are accepted is the same.
- Text.ParseInt: models `int()` with ASCII digits and the ASCII whitespace it skips only. Other Unicode digits and spaces that Python accepts are rejected by the model.
- Text.ParseInt: does not model the limit on the number of digits `int()` converts (4300 by default, leading zeros included). A zero-padded `score_over` longer than that is refused with 400 by Python and accepted by the model.
- Text.ParseIntRoundTrip: holds for every integer in the model, but Python's `str()` refuses integers of more than 4300 digits by default. The round trip is promised only below that limit.
- Dates.ParseDate: matches `\d` against ASCII digits only, where Python's regular expression also accepts other Unicode digits.
- JsonValues.Json: floats are `real`, so NaN and infinities are not modelled, and duplicate keys are not represented.
- ListSubjects.SortByBirthDesc: sorts by the stored date. The source re-parses the `TO_CHAR` text; `Dates.ParseFormatRoundTrip` shows that this gives the same date for years 1 to 9999.
- DeleteExperiment.Delete: the look-up and the delete run as one step. A concurrent request between the two statements is not modelled.
- CreateExperiment.Create: the generated identifier is a parameter. A missing subject, a taken identifier or a boolean field is a database error, reported as an uncaught exception.
- CreateExperiment.Create: does not model the range of the integer columns, so a positive `subject_id` or `score` too large for the column is answered 201 where the database would refuse it. The column types are not part of this model.
- CreateExperiment.Create: does not model PostgreSQL's own reading of the date text. A text `strptime` accepts but the database may refuse, such as a blank before the day (`2024-01- 5`), is answered 201 with the parsed date.
- ListSubjects.GetSubjects: birth dates are always present. A NULL birth date makes `strptime` raise a `TypeError` (500), which is not modelled. Dates before year 1, which `TO_CHAR` renders without an era, are not modelled either.

## Findings

| source | as written | input that shows it | evidently intended | confidence | as-written member | corrected member |
|---|---|---|---|---|---|---|
| marine_experiments/api.py:133-141 | an empty `score_over` fails the truthiness test, so it is neither converted nor rejected, and it reaches `get_experiments` as `""`; there `score_over is not None` holds, so `... > ` is appended with an empty right-hand side, the database rejects the query, and the client gets 500 | `GET /experiment?score_over=` | an absent or empty `score_over` means no score filter | high; not executed | `ListExperiments.CheckScoreAsWritten`, `ListExperiments.ListQueryAsWritten`, `ListExperiments.EmptyScoreOverIsMalformed` | `ListExperiments.CheckScore`, `ListExperiments.ListQuery` |

=== FILE: create_experiment.dfy ===
/** POST /experiment: an ordered chain of checks over the decoded JSON body,
    where the first failing check picks the error, then the lookup of the
    type and the insertion of the new experiment. */
module CreateExperiment {
  import opened Outcomes
  import opened Text
  import opened Dates
  import opened JsonValues
  import opened Records
  import opened Http

  /** A request that passed every check. `experimentType` is kept as the
      client wrote it; the store matches it case-insensitively. */
  datatype NewExperiment = NewExperiment(subjectId: int, experimentType: string, score: int, date: Date)

  /** A check passes with a value, rejects the request with a message, or
      raises an exception the handler does not catch. */
  datatype Checked<+T> = Pass(value: T) | Reject(message: string) | Raise(reason: string)

  /** The row `INSERT ... RETURNING` hands back. */
  datatype Created = Created(experimentId: int, subjectId: int, typeId: int, score: int, experimentDate: Date)

  const NotJsonMessage := "Request body must be JSON"

  /** The message of the store lookup in `create_experiment` lacks the final full stop
      of the validation messages. */
  const UnknownTypeMessage := "Invalid value for 'experiment_type' parameter"

  function MissingKey(key: string): string {
    "Request missing key '" + key + "'."
  }

  function InvalidValue(key: string): string {
    "Invalid value for '" + key + "' parameter."
  }

  /** The `subject_id` checks of `create_experiment`. A falsy value (absent, null, 0, false, "", ...) is
      reported missing; then it must be an `int` (a `bool` is one) and
      positive. */
  function CheckSubjectId(v: Json): (r: Result<int>)
    ensures r.Ok? <==> IsInt(v) && IntValue(v) > 0
    ensures r.Ok? ==> r.value == IntValue(v)
    ensures r.Err? ==> (r.message == MissingKey("subject_id") <==> !Truthy(v))
    ensures r.Err? ==> r.message in {MissingKey("subject_id"), InvalidValue("subject_id")}
  {
    if !Truthy(v) then Err(MissingKey("subject_id"))
    else if !IsInt(v) then Err(InvalidValue("subject_id"))
    else if IntValue(v) <= 0 then Err(InvalidValue("subject_id"))
    else Ok(IntValue(v))
  }

  /** The `experiment_type` checks of `create_experiment`: a non-empty string whose lower-cased form is a valid
      type name. */
  function CheckExperimentType(v: Json): (r: Result<string>)
    ensures r.Ok? <==> v.JString? && IsValidTypeName(v.s)
    ensures r.Ok? ==> r.value == v.s
    ensures r.Err? ==> (r.message == MissingKey("experiment_type") <==> !Truthy(v))
    ensures r.Err? ==> r.message in {MissingKey("experiment_type"), InvalidValue("experiment_type")}
  {
    if !Truthy(v) then Err(MissingKey("experiment_type"))
    else if !v.JString? then Err(InvalidValue("experiment_type"))
    else if !IsValidTypeName(v.s) then Err(InvalidValue("experiment_type"))
    else Ok(v.s)
  }

  /** The `score` checks of `create_experiment`. Zero is falsy and so reported missing; a non-`int` or
      negative value is invalid; every positive `int` passes. */
  function CheckScore(v: Json): (r: Result<int>)
    ensures r.Ok? <==> IsInt(v) && IntValue(v) > 0
    ensures r.Ok? ==> r.value == IntValue(v)
    ensures r.Err? ==> (r.message == MissingKey("score") <==> !Truthy(v))
    ensures r.Err? ==> r.message in {MissingKey("score"), InvalidValue("score")}
  {
    if !Truthy(v) then Err(MissingKey("score"))
    else if !IsInt(v) || IntValue(v) < 0 then Err(InvalidValue("score"))
    else Ok(IntValue(v))
  }

  /** The `experiment_date` default and check of `create_experiment`. An absent `experiment_date` defaults to today's
      date as text; a present one must be a string (`strptime` raises a
      `TypeError`, which nothing catches, for anything else, null included)
      that parses as `%Y-%m-%d`. */
  function CheckDate(fields: map<string, Json>, todayText: string): (r: Checked<Date>)
    ensures r.Pass? ==> Valid(r.value)
    ensures r.Raise? <==> "experiment_date" in fields && !fields["experiment_date"].JString?
    ensures r.Reject? ==> r.message == InvalidValue("experiment_date")
    ensures "experiment_date" in fields && fields["experiment_date"].JString? ==>
      (r.Pass? <==> ParseDate(fields["experiment_date"].s).Some?)
    ensures "experiment_date" !in fields ==> (r.Pass? <==> ParseDate(todayText).Some?)
    ensures r.Pass? && "experiment_date" in fields ==> r.value == ParseDate(fields["experiment_date"].s).value
    ensures r.Pass? && "experiment_date" !in fields ==> r.value == ParseDate(todayText).value
  {
    var text := if "experiment_date" in fields then fields["experiment_date"] else JString(todayText);
    if !text.JString? then Raise("TypeError: strptime() argument 1 must be str")
    else
      match ParseDate(text.s)
      case None => Reject(InvalidValue("experiment_date"))
      case Some(d) => Pass(d)
  }

  /** The checks in source order: subject, type, score, date. */
  function ValidateFields(fields: map<string, Json>, todayText: string): Checked<NewExperiment> {
    match CheckSubjectId(Get(fields, "subject_id"))
    case Err(m) => Reject(m)
    case Ok(subjectId) =>
      match CheckExperimentType(Get(fields, "experiment_type"))
      case Err(m) => Reject(m)
      case Ok(experimentType) =>
        match CheckScore(Get(fields, "score"))
        case Err(m) => Reject(m)
        case Ok(score) =>
          match CheckDate(fields, todayText)
          case Reject(m) => Reject(m)
          case Raise(e) => Raise(e)
          case Pass(date) => Pass(NewExperiment(subjectId, experimentType, score, date))
  }

  /** Subject, type and score as a field-by-field reading of the
      `create_experiment` checks accepts them. */
  predicate RequiredFieldsAcceptable(fields: map<string, Json>) {
    var subject := Get(fields, "subject_id");
    var kind := Get(fields, "experiment_type");
    var score := Get(fields, "score");
    && IsInt(subject) && IntValue(subject) > 0
    && kind.JString? && IsValidTypeName(kind.s)
    && IsInt(score) && IntValue(score) > 0
  }

  /** Everything a field-by-field reading of the `create_experiment` checks
      accepts. */
  predicate FieldsAcceptable(fields: map<string, Json>, todayText: string) {
    RequiredFieldsAcceptable(fields) && CheckDate(fields, todayText).Pass?
  }

  /** The validation part of `create_experiment`. A falsy body is refused as not JSON; a truthy body that
      is not an object has no `.get` and raises. */
  function ValidateBody(body: Json, todayText: string): (r: Checked<NewExperiment>)
    ensures !Truthy(body) ==> r == Reject(NotJsonMessage)
    ensures Truthy(body) && !body.JObject? ==> r.Raise?
    ensures r.Pass? <==> body.JObject? && FieldsAcceptable(body.fields, todayText)
    ensures r.Pass? ==>
      && r.value.subjectId > 0 && r.value.score > 0
      && IsValidTypeName(r.value.experimentType) && Valid(r.value.date)
      && r.value.subjectId == IntValue(Get(body.fields, "subject_id"))
      && r.value.score == IntValue(Get(body.fields, "score"))
      && JString(r.value.experimentType) == Get(body.fields, "experiment_type")
      && r.value.date == CheckDate(body.fields, todayText).value
    // once subject, type and score pass, the date check decides
    ensures body.JObject? && Truthy(body) && RequiredFieldsAcceptable(body.fields) ==>
      && (CheckDate(body.fields, todayText).Reject? ==> r == Reject(InvalidValue("experiment_date")))
      && (CheckDate(body.fields, todayText).Raise? ==> r.Raise?)
  {
    if !Truthy(body) then Reject(NotJsonMessage)
    else if !body.JObject? then Raise("AttributeError: object has no attribute 'get'")
    else ValidateFields(body.fields, todayText)
  }

  /** First failure decides: once `subject_id` fails, nothing else in the
      body (nor the clock) affects the answer. */
  lemma SubjectFailureDecides(f: map<string, Json>, g: map<string, Json>, t1: string, t2: string)
    requires Get(f, "subject_id") == Get(g, "subject_id")
    requires CheckSubjectId(Get(f, "subject_id")).Err?
    ensures ValidateFields(f, t1) == ValidateFields(g, t2) == Reject(CheckSubjectId(Get(f, "subject_id")).message)
  {
  }

  /** After a good `subject_id`, a failing `experiment_type` decides the
      answer whatever the score and date are. */
  lemma TypeFailureDecides(f: map<string, Json>, g: map<string, Json>, t1: string, t2: string)
    requires Get(f, "subject_id") == Get(g, "subject_id")
    requires Get(f, "experiment_type") == Get(g, "experiment_type")
    requires CheckSubjectId(Get(f, "subject_id")).Ok?
    requires CheckExperimentType(Get(f, "experiment_type")).Err?
    ensures ValidateFields(f, t1) == ValidateFields(g, t2) == Reject(CheckExperimentType(Get(f, "experiment_type")).message)
  {
  }

  /** After good subject and type, a failing `score` decides the answer
      whatever the date is. */
  lemma ScoreFailureDecides(f: map<string, Json>, g: map<string, Json>, t1: string, t2: string)
    requires Get(f, "subject_id") == Get(g, "subject_id")
    requires Get(f, "experiment_type") == Get(g, "experiment_type")
    requires Get(f, "score") == Get(g, "score")
    requires CheckSubjectId(Get(f, "subject_id")).Ok?
    requires CheckExperimentType(Get(f, "experiment_type")).Ok?
    requires CheckScore(Get(f, "score")).Err?
    ensures ValidateFields(f, t1) == ValidateFields(g, t2) == Reject(CheckScore(Get(f, "score")).message)
  {
  }

  /** A `subject_id` of 0 is reported as missing, not as invalid. */
  lemma ZeroSubjectIsMissing(fields: map<string, Json>, todayText: string)
    requires "subject_id" in fields && fields["subject_id"] == JInt(0)
    ensures ValidateFields(fields, todayText) == Reject(MissingKey("subject_id"))
  {
  }

  /** A `score` of 0 is reported as missing even when everything before it
      is fine. */
  lemma ZeroScoreIsMissing(fields: map<string, Json>, todayText: string)
    requires CheckSubjectId(Get(fields, "subject_id")).Ok?
    requires CheckExperimentType(Get(fields, "experiment_type")).Ok?
    requires "score" in fields && fields["score"] == JInt(0)
    ensures ValidateFields(fields, todayText) == Reject(MissingKey("score"))
  {
  }

  /** `true` is an `int` equal to 1 in Python, so it passes as subject 1. */
  lemma TrueSubjectIsOne(fields: map<string, Json>, todayText: string)
    requires "subject_id" in fields && fields["subject_id"] == JBool(true)
    requires ValidateFields(fields, todayText).Pass?
    ensures ValidateFields(fields, todayText).value.subjectId == 1
  {
  }

  /** Without `experiment_date` the experiment is dated today. */
  lemma DefaultDateIsToday(fields: map<string, Json>, today: Date)
    requires Valid(today)
    requires "experiment_date" !in fields
    requires RequiredFieldsAcceptable(fields)
    ensures ValidateFields(fields, FormatDate(today)) == Pass(NewExperiment(
      IntValue(Get(fields, "subject_id")), Get(fields, "experiment_type").s,
      IntValue(Get(fields, "score")), today))
  {
    ParseFormatRoundTrip(today);
  }

  /** The first type row, in table order, whose name matches `name` ignoring
      case (`fetchone` of the type lookup in `create_experiment`). */
  function ResolveType(types: seq<ExperimentType>, name: string): (r: Option<int>)
    ensures r.Some? ==> exists i :: 0 <= i < |types| && types[i].typeId == r.value && Lower(types[i].typeName) == Lower(name)
    ensures r.None? <==> forall i :: 0 <= i < |types| ==> Lower(types[i].typeName) != Lower(name)
  {
    if types == [] then None
    else if Lower(types[0].typeName) == Lower(name) then Some(types[0].typeId)
    else
      var r := ResolveType(types[1..], name);
      assert forall i :: 1 <= i < |types| ==> types[i] == types[1..][i - 1];
      r
  }

  /** psycopg2 sends a Python `bool` as an SQL boolean, which the integer
      columns of `experiment` do not take: a `true` that passed validation as
      `subject_id` or `score` makes the INSERT fail. */
  predicate SendsBoolean(body: Json) {
    body.JObject? && (Get(body.fields, "subject_id").JBool? || Get(body.fields, "score").JBool?)
  }

  /** `create_experiment` over the abstract store. `newId` is the identifier the
      database would generate. A boolean field, a missing subject or a taken
      identifier is a database error the handler does not catch. */
  function Create(st: Store, body: Json, todayText: string, newId: nat): (res: (Reply<Created>, Store))
    ensures SameReferenceData(st, res.1)
    ensures res.0.status in {Created201, BadRequest400, ServerError500}
    ensures res.0.status != Created201 ==> res.1 == st
    ensures ReferencesResolve(st) ==> ReferencesResolve(res.1)
    // which failure answers what
    ensures ValidateBody(body, todayText).Reject? ==>
      res.0 == Reply(BadRequest400, Error(ValidateBody(body, todayText).message))
    ensures ValidateBody(body, todayText).Raise? ==>
      res.0.status == ServerError500 && res.0.body.Unhandled?
    ensures ValidateBody(body, todayText).Pass? ==>
      var rec := ValidateBody(body, todayText).value;
      && (ResolveType(st.types, rec.experimentType).None? ==>
            res.0 == Reply(BadRequest400, Error(UnknownTypeMessage)))
      && (ResolveType(st.types, rec.experimentType).Some? &&
          (SendsBoolean(body) || !HasSubject(st, rec.subjectId) || newId in st.experiments) ==>
            res.0.status == ServerError500 && res.0.body.Unhandled?)
    // a good request succeeds
    ensures ValidateBody(body, todayText).Pass? ==>
      var rec := ValidateBody(body, todayText).value;
      (ResolveType(st.types, rec.experimentType).Some? && !SendsBoolean(body)
        && HasSubject(st, rec.subjectId) && newId !in st.experiments) ==> res.0.status == Created201
    // and what success means
    ensures res.0.status == Created201 ==>
      && ValidateBody(body, todayText).Pass?
      && !SendsBoolean(body)
      && newId !in st.experiments
      && res.1.experiments.Keys == st.experiments.Keys + {newId}
      && (forall k :: k in st.experiments ==> res.1.experiments[k] == st.experiments[k])
    ensures res.0.status == Created201 ==>
      var rec := ValidateBody(body, todayText).value;
      && res.0.body.Payload?
      && var row := res.0.body.value;
      && row.experimentId == newId && row.subjectId == rec.subjectId
      && row.score == rec.score && row.experimentDate == rec.date
      && ResolveType(st.types, rec.experimentType) == Some(row.typeId)
      && res.1.experiments[newId] == Experiment(rec.subjectId, row.typeId, rec.score, rec.date)
      && HasSubject(st, rec.subjectId) && HasType(st, row.typeId)
  {
    match ValidateBody(body, todayText)
    case Reject(m) => (Reply(BadRequest400, Error(m)), st)
    case Raise(e) => (Reply(ServerError500, Unhandled(e)), st)
    case Pass(rec) =>
      match ResolveType(st.types, rec.experimentType)
      case None => (Reply(BadRequest400, Error(UnknownTypeMessage)), st)
      case Some(typeId) =>
        if SendsBoolean(body) then
          (Reply(ServerError500, Unhandled("DatatypeMismatch")), st)
        else if !HasSubject(st, rec.subjectId) then
          (Reply(ServerError500, Unhandled("ForeignKeyViolation")), st)
        else if newId in st.experiments then
          (Reply(ServerError500, Unhandled("UniqueViolation")), st)
        else
          var row := Experiment(rec.subjectId, typeId, rec.score, rec.date);
          var after := st.(experiments := st.experiments[newId := row]);
          assert HasType(st, typeId);
          assert forall k :: k in st.experiments ==> after.experiments[k] == st.experiments[k];
          (Reply(Created201, Payload(Created(newId, rec.subjectId, typeId, rec.score, rec.date))), after)
  }

  /** `true` passes validation as subject 1, but the request still fails at
      the INSERT and nothing is stored. */
  lemma TrueSubjectIsNotStored(st: Store, fields: map<string, Json>, todayText: string, newId: nat)
    requires "subject_id" in fields && fields["subject_id"] == JBool(true)
    requires ValidateFields(fields, todayText).Pass?
    ensures ValidateBody(JObject(fields), todayText).value.subjectId == 1
    ensures Create(st, JObject(fields), todayText, newId).0.status != Created201
    ensures Create(st, JObject(fields), todayText, newId).1 == st
  {
    assert Truthy(JObject(fields));
  }

  /** The store lists every accepted type name. */
  predicate TypesCovered(st: Store) {
    forall k :: 0 <= k < |ValidTypes| ==>
      exists i :: 0 <= i < |st.types| && Lower(st.types[i].typeName) == ValidTypes[k]
  }

  /** When the store lists every accepted type name, a body that passes
      validation is never refused by the type lookup. */
  lemma CoveredTypesResolve(st: Store, body: Json, todayText: string, newId: nat)
    requires TypesCovered(st)
    requires ValidateBody(body, todayText).Pass?
    ensures Create(st, body, todayText, newId).0.status != BadRequest400
  {
    var rec := ValidateBody(body, todayText).value;
    var k :| 0 <= k < |ValidTypes| && ValidTypes[k] == Lower(rec.experimentType);
    var i :| 0 <= i < |st.types| && Lower(st.types[i].typeName) == ValidTypes[k];
    assert Lower(st.types[i].typeName) == Lower(rec.experimentType);
  }

  lemma {:induction false} ResolveTypeIgnoresCase(types: seq<ExperimentType>, t: string, u: string)
    requires Lower(t) == Lower(u)
    ensures ResolveType(types, t) == ResolveType(types, u)
  {
    if types != [] {
      ResolveTypeIgnoresCase(types[1..], t, u);
    }
  }

  /** Validation looks at the case of `experiment_type` only through
      `Lower`: two bodies that differ only there get the same verdict. */
  lemma ValidateIgnoresTypeCase(f: map<string, Json>, t: string, u: string, todayText: string)
    requires Lower(t) == Lower(u)
    ensures var a := ValidateFields(f["experiment_type" := JString(t)], todayText);
      var b := ValidateFields(f["experiment_type" := JString(u)], todayText);
      && (a.Pass? <==> b.Pass?)
      && (!a.Pass? ==> a == b)
      && (a.Pass? ==> b.value == a.value.(experimentType := u))
  {
    var ft := f["experiment_type" := JString(t)];
    var fu := f["experiment_type" := JString(u)];
    assert Get(ft, "subject_id") == Get(fu, "subject_id");
    assert Get(ft, "score") == Get(fu, "score");
    assert CheckDate(ft, todayText) == CheckDate(fu, todayText);
    assert |t| == |u|;
  }

  /** The type name is matched ignoring case: bodies that differ only in
      the case of `experiment_type` get the same status and leave the store
      in the same state. */
  lemma CreateIgnoresTypeCase(st: Store, f: map<string, Json>, t: string, u: string, todayText: string, newId: nat)
    requires Lower(t) == Lower(u)
    ensures var a := Create(st, JObject(f["experiment_type" := JString(t)]), todayText, newId);
      var b := Create(st, JObject(f["experiment_type" := JString(u)]), todayText, newId);
      a.0.status == b.0.status && a.1 == b.1
  {
    var ft := f["experiment_type" := JString(t)];
    var fu := f["experiment_type" := JString(u)];
    assert "experiment_type" in ft && "experiment_type" in fu;
    assert Truthy(JObject(ft)) && Truthy(JObject(fu));
    ValidateIgnoresTypeCase(f, t, u, todayText);
    ResolveTypeIgnoresCase(st.types, t, u);
  }
}

=== FILE: dates.dfy ===
/** Calendar dates as the API reads and writes them: `datetime.strptime(s,
    '%Y-%m-%d')` on the way in, `YYYY-MM-DD` (`strftime` / `TO_CHAR`) on the
    way out. */
module Dates {
  import opened Outcomes
  import opened Text

  datatype Date = Date(year: int, month: int, day: int)

  predicate IsLeapYear(y: int) {
    y % 4 == 0 && (y % 100 != 0 || y % 400 == 0)
  }

  function DaysInMonth(y: int, m: int): int
    requires 1 <= m <= 12
  {
    if m == 2 then (if IsLeapYear(y) then 29 else 28)
    else if m == 4 || m == 6 || m == 9 || m == 11 then 30
    else 31
  }

  /** The dates Python's `datetime` can hold: years 1 through 9999 and a day
      that exists in its month. */
  predicate Valid(d: Date) {
    && 1 <= d.year <= 9999
    && 1 <= d.month <= 12
    && 1 <= d.day <= DaysInMonth(d.year, d.month)
  }

  /** Chronological order; on valid dates it is the lexicographic order of
      (year, month, day). */
  predicate OnOrBefore(a: Date, b: Date) {
    || a.year < b.year
    || (a.year == b.year && a.month < b.month)
    || (a.year == b.year && a.month == b.month && a.day <= b.day)
  }

  lemma OnOrBeforeTotalOrder(a: Date, b: Date, c: Date)
    ensures OnOrBefore(a, a)
    ensures OnOrBefore(a, b) || OnOrBefore(b, a)
    ensures OnOrBefore(a, b) && OnOrBefore(b, a) ==> a == b
    ensures OnOrBefore(a, b) && OnOrBefore(b, c) ==> OnOrBefore(a, c)
  {
  }

  /** The `%m` directive, `1[0-2]|0[1-9]|[1-9]`, followed by the literal '-'.
      Gives the month and the length of text consumed, dash included. */
  function MatchMonthDash(r: string): (m: Option<(int, nat)>)
    ensures m.Some? ==> 1 <= m.value.0 <= 12 && 2 <= m.value.1 <= 3 && m.value.1 <= |r|
  {
    if |r| >= 3 && ((r[0] == '1' && '0' <= r[1] <= '2') || (r[0] == '0' && '1' <= r[1] <= '9')) && r[2] == '-' then
      Some((10 * DigitOf(r[0]) + DigitOf(r[1]), 3))
    else if |r| >= 2 && '1' <= r[0] <= '9' && r[1] == '-' then
      Some((DigitOf(r[0]), 2))
    else None
  }

  /** The `%d` directive at the start of `t`: the first of the alternatives
      `3[01]`, `[12]\d`, `0[1-9]`, `[1-9]`, ` [1-9]` that matches. Gives the
      day and the length of text consumed. */
  function MatchDay(t: string): (m: Option<(int, nat)>)
    ensures m.Some? ==> 1 <= m.value.0 <= 31 && 1 <= m.value.1 <= 2 && m.value.1 <= |t|
  {
    if |t| >= 2 && t[0] == '3' && '0' <= t[1] <= '1' then Some((30 + DigitOf(t[1]), 2))
    else if |t| >= 2 && '1' <= t[0] <= '2' && IsDigit(t[1]) then Some((10 * DigitOf(t[0]) + DigitOf(t[1]), 2))
    else if |t| >= 2 && t[0] == '0' && '1' <= t[1] <= '9' then Some((DigitOf(t[1]), 2))
    else if |t| >= 1 && '1' <= t[0] <= '9' then Some((DigitOf(t[0]), 1))
    else if |t| >= 2 && t[0] == ' ' && '1' <= t[1] <= '9' then Some((DigitOf(t[1]), 2))
    else None
  }

  /** `datetime.strptime(s, '%Y-%m-%d')`: four digits, '-', a month, '-', a
      day, with nothing left over, naming a date that exists. `None` stands
      for the `ValueError` raised otherwise. */
  function ParseDate(s: string): (r: Option<Date>)
    ensures r.Some? ==> Valid(r.value)
  {
    if |s| < 5 || !(forall i :: 0 <= i < 4 ==> IsDigit(s[i])) || s[4] != '-' then None
    else
      match MatchMonthDash(s[5..])
      case None => None
      case Some((month, k)) =>
        var rest := s[5 + k..];
        match MatchDay(rest)
        case None => None
        case Some((day, n)) =>
          var d := Date(DecimalValue(s[..4]), month, day);
          if n == |rest| && Valid(d) then Some(d) else None
  }

  function Pad2(n: int): (r: string)
    requires 0 <= n < 100
    ensures |r| == 2
  {
    [DigitChar(n / 10), DigitChar(n % 10)]
  }

  function Pad4(n: int): (r: string)
    requires 0 <= n < 10000
    ensures |r| == 4
  {
    [DigitChar(n / 1000), DigitChar(n / 100 % 10), DigitChar(n / 10 % 10), DigitChar(n % 10)]
  }

  /** `YYYY-MM-DD`, zero-padded, as `strftime('%Y-%m-%d')` and
      `TO_CHAR(..., 'YYYY-MM-DD')` render a date. */
  function FormatDate(d: Date): (r: string)
    requires Valid(d)
    ensures |r| == 10 && r[4] == '-' && r[7] == '-'
    ensures forall i :: 0 <= i < 10 && i != 4 && i != 7 ==> IsDigit(r[i])
  {
    Pad4(d.year) + "-" + Pad2(d.month) + "-" + Pad2(d.day)
  }

  /** Appending a digit shifts the value one decimal place. */
  lemma DecimalSnoc(s: string, c: char)
    requires IsDigit(c)
    ensures DecimalValue(s + [c]) == 10 * DecimalValue(s) + DigitOf(c)
  {
    assert (s + [c])[..|s + [c]| - 1] == s;
  }

  /** The value of four digits, written out place by place. */
  lemma DecimalOfFour(t: string)
    requires |t| == 4 && forall i :: 0 <= i < 4 ==> IsDigit(t[i])
    ensures DecimalValue(t) == 1000 * DigitOf(t[0]) + 100 * DigitOf(t[1]) + 10 * DigitOf(t[2]) + DigitOf(t[3])
  {
    var p1 := [t[0]];
    var p2 := p1 + [t[1]];
    var p3 := p2 + [t[2]];
    var p4 := p3 + [t[3]];
    DecimalSnoc([], t[0]);
    assert [] + [t[0]] == p1;
    DecimalSnoc(p1, t[1]);
    DecimalSnoc(p2, t[2]);
    DecimalSnoc(p3, t[3]);
    assert p4 == t;
  }

  lemma Pad4Value(n: int)
    requires 0 <= n < 10000
    ensures DecimalValue(Pad4(n)) == n
  {
    var a, r := n / 1000, n % 1000;
    var b, r2 := r / 100, r % 100;
    var c, d := r2 / 10, r2 % 10;
    assert n == 1000 * a + 100 * b + 10 * c + d;
    DivHundred(n, 10 * a + b, 10 * c + d);
    DivTen(10 * a + b, a, b);
    DivTen(n, 100 * a + 10 * b + c, d);
    DivTen(100 * a + 10 * b + c, 10 * a + b, c);
    DecimalOfFour(Pad4(n));
  }

  /** Parsing what the formatter produced gives the date back. */
  lemma ParseFormatRoundTrip(d: Date)
    requires Valid(d)
    ensures ParseDate(FormatDate(d)) == Some(d)
  {
    var s := FormatDate(d);
    assert s[..4] == Pad4(d.year);
    Pad4Value(d.year);
    assert s[5..] == Pad2(d.month) + "-" + Pad2(d.day);
    assert s[5 + 3..] == Pad2(d.day);
  }

  /** The formatter is injective on valid dates: two dates render alike only
      if they are the same date. */
  lemma FormatInjective(a: Date, b: Date)
    requires Valid(a) && Valid(b)
    requires FormatDate(a) == FormatDate(b)
    ensures a == b
  {
    ParseFormatRoundTrip(a);
    ParseFormatRoundTrip(b);
  }

  /** A ten-character text the parser accepts, with no blank before the day,
      is already in canonical form. */
  lemma ParsedCanonicalText(s: string)
    requires ParseDate(s).Some? && |s| == 10 && s[8] != ' '
    ensures FormatDate(ParseDate(s).value) == s
  {
    var d := ParseDate(s).value;
    var f := FormatDate(d);
    DecimalFour(s[..4]);
    assert f[..4] == s[..4];
    assert forall i :: 0 <= i < 10 ==> f[i] == s[i];
  }

  lemma DivTen(n: int, q: int, r: int)
    requires 0 <= r < 10 && n == 10 * q + r
    ensures n / 10 == q && n % 10 == r
  {
  }

  lemma DivHundred(n: int, q: int, r: int)
    requires 0 <= r < 100 && n == 100 * q + r
    ensures n / 100 == q
  {
  }

  lemma DivThousand(n: int, q: int, r: int)
    requires 0 <= r < 1000 && n == 1000 * q + r
    ensures n / 1000 == q
  {
  }

  lemma DecimalFour(t: string)
    requires |t| == 4 && forall i :: 0 <= i < 4 ==> IsDigit(t[i])
    ensures DecimalValue(t) < 10000
    ensures Pad4(DecimalValue(t)) == t
  {
    DecimalOfFour(t);
    var a, b, c, d := DigitOf(t[0]), DigitOf(t[1]), DigitOf(t[2]), DigitOf(t[3]);
    var n := 1000 * a + 100 * b + 10 * c + d;
    DivThousand(n, a, 100 * b + 10 * c + d);
    DivHundred(n, 10 * a + b, 10 * c + d);
    DivTen(10 * a + b, a, b);
    DivTen(n, 100 * a + 10 * b + c, d);
    DivTen(100 * a + 10 * b + c, 10 * a + b, c);
  }
}

=== FILE: delete_experiment.dfy ===
/** DELETE /experiment/<id>: look the experiment up, answer 404 when it is
    not there, otherwise remove it and return its identifier and date. */
module DeleteExperiment {
  import opened Outcomes
  import opened Text
  import opened Dates
  import opened Records
  import opened Http

  /** The row `DELETE ... RETURNING` hands back. */
  datatype Deleted = Deleted(experimentId: int, experimentDate: Date)

  const NotFoundPrefix := "Unable to locate experiment with ID "

  function NotFoundMessage(id: nat): string {
    NotFoundPrefix + NatToString(id) + "."
  }

  /** Removes experiment `id` from the store. Route identifiers are
      non-negative integers. */
  function Delete(st: Store, id: nat): (res: (Reply<Deleted>, Store))
    ensures SameReferenceData(st, res.1)
    ensures id !in st.experiments ==> res.0 == Reply(NotFound404, Error(NotFoundMessage(id))) && res.1 == st
    ensures id in st.experiments ==> res.0 == Reply(Ok200, Payload(Deleted(id, st.experiments[id].date)))
    ensures res.1.experiments.Keys == st.experiments.Keys - {id}
    ensures forall k :: k in res.1.experiments ==> res.1.experiments[k] == st.experiments[k]
    ensures id in st.experiments ==> |res.1.experiments| == |st.experiments| - 1
  {
    if id !in st.experiments then
      (Reply(NotFound404, Error(NotFoundMessage(id))), st)
    else
      var remaining := st.experiments - {id};
      assert remaining.Keys == st.experiments.Keys - {id};
      (Reply(Ok200, Payload(Deleted(id, st.experiments[id].date))), st.(experiments := remaining))
  }

  /** The 404 message names the identifier: the text between the fixed
      prefix and the final full stop reads back as `id`. */
  lemma NotFoundMessageNamesId(id: nat)
    ensures var m := NotFoundMessage(id);
      && |m| > |NotFoundPrefix| + 1
      && m[..|NotFoundPrefix|] == NotFoundPrefix
      && ParseInt(m[|NotFoundPrefix|..|m| - 1]) == Some(id as int)
  {
    var m := NotFoundMessage(id);
    assert m[|NotFoundPrefix|..|m| - 1] == NatToString(id);
    ParseIntRoundTrip(id);
  }

  /** Removing an experiment never breaks foreign-key integrity. */
  lemma DeletePreservesReferences(st: Store, id: nat)
    requires ReferencesResolve(st)
    ensures ReferencesResolve(Delete(st, id).1)
  {
  }

  /** A second delete of the same identifier finds nothing and changes
      nothing. */
  lemma DeleteTwiceIsNotFound(st: Store, id: nat)
    ensures var after := Delete(st, id).1;
      Delete(after, id) == (Reply(NotFound404, Error(NotFoundMessage(id))), after)
  {
  }
}

=== FILE: http.dfy ===
/** Replies of the HTTP endpoints, abstracted to a status and a body. */
module Http {

  /** A JSON payload, an `{"error": message}` object, or an exception the
      handler does not catch (the web framework answers it with status 500). */
  datatype Body<+T> = Payload(value: T) | Error(message: string) | Unhandled(reason: string)

  datatype Reply<+T> = Reply(status: int, body: Body<T>)

  const Ok200 := 200
  const Created201 := 201
  const BadRequest400 := 400
  const NotFound404 := 404
  const ServerError500 := 500
}

=== FILE: json_values.dfy ===
/** Decoded JSON request bodies, seen the way the Python handler sees them:
    truthiness, `isinstance(v, int)` and `dict.get`. */
module JsonValues {

  /** A decoded JSON value. Numbers with a fraction or exponent decode to
      floats, the others to integers. */
  datatype Json =
    | JNull
    | JBool(b: bool)
    | JInt(i: int)
    | JFloat(f: real)
    | JString(s: string)
    | JArray(items: seq<Json>)
    | JObject(fields: map<string, Json>)

  /** Python truthiness: `None`, `False`, zero and empty containers are false. */
  predicate Truthy(v: Json) {
    match v
    case JNull => false
    case JBool(b) => b
    case JInt(i) => i != 0
    case JFloat(f) => f != 0.0
    case JString(s) => |s| > 0
    case JArray(items) => |items| > 0
    case JObject(fields) => |fields| > 0
  }

  /** `isinstance(v, int)`: a Python `bool` is an `int` too. */
  predicate IsInt(v: Json) {
    v.JInt? || v.JBool?
  }

  /** The integer an `int` (or `bool`) stands for: `True == 1`, `False == 0`. */
  function IntValue(v: Json): int
    requires IsInt(v)
  {
    if v.JBool? then (if v.b then 1 else 0) else v.i
  }

  /** `dict.get(key)`: a missing key reads as `None`. */
  function Get(fields: map<string, Json>, key: string): Json {
    if key in fields then fields[key] else JNull
  }
}

=== FILE: lifecycle.dfy ===
/** How creation and deletion of experiments fit together. */
module Lifecycle {
  import opened Records
  import opened Http
  import opened JsonValues
  import opened CreateExperiment
  import opened DeleteExperiment

  /** Deleting the experiment just created returns its identifier and date
      and restores the store exactly. */
  lemma CreateThenDelete(st: Store, body: Json, todayText: string, newId: nat)
    requires Create(st, body, todayText, newId).0.status == Created201
    ensures var (created, after) := Create(st, body, todayText, newId);
      var (deleted, restored) := Delete(after, newId);
      && deleted == Reply(Ok200, Payload(Deleted(newId, created.body.value.experimentDate)))
      && restored == st
  {
    var (created, after) := Create(st, body, todayText, newId);
    var restored := Delete(after, newId).1;
    assert restored.experiments == st.experiments;
  }

  /** A request that fails validation changes nothing, so a delete that
      follows sees the store as it was. */
  lemma RejectedCreateLeavesStore(st: Store, body: Json, todayText: string, newId: nat, id: nat)
    requires !ValidateBody(body, todayText).Pass?
    ensures Create(st, body, todayText, newId).1 == st
    ensures Delete(Create(st, body, todayText, newId).1, id) == Delete(st, id)
  {
  }
}

=== FILE: list_experiments.dfy ===
/** GET /experiment: validation of the `type` and `score_over` query
    arguments and the filter clause assembled from them. The query is kept
    abstract: a list of predicates joined by AND, always ordered by
    experiment date, most recent first. */
module ListExperiments {
  import opened Outcomes
  import opened Text
  import opened Records
  import opened Http

  /** The right-hand side of the score comparison: a number, or raw text
      spliced into the query as it came. */
  datatype Operand = IntLiteral(n: int) | RawText(text: string)

  datatype Predicate =
    | TypeIs(name: string)         // LOWER(type_name) = LOWER(name)
    | ScoreAbove(bound: Operand)   // rounded score percentage > bound

  datatype Ordering = ExperimentDateDesc

  datatype Query = Query(filters: seq<Predicate>, orderBy: Ordering)

  /** The filter arguments as the query builder receives them: the type name
      (no filter when absent or empty) and the score bound (a filter whenever
      present, whatever it holds). */
  datatype FilterArgs = FilterArgs(experimentType: Option<string>, scoreOver: Option<Operand>)

  /** An experiment as the query sees it: its type name and its score as a
      percentage of the type's maximum, rounded to hundredths and counted in
      hundredths of a percent. */
  datatype ExperimentRow = ExperimentRow(typeName: string, percentHundredths: int)

  const TypeMessage := "Invalid value for 'type' parameter"
  const ScoreMessage := "Invalid value for 'score_over' parameter"

  predicate HasTypeFilter(f: FilterArgs) {
    f.experimentType.Some? && |f.experimentType.value| > 0
  }

  /** The filter assembly of `get_experiments`: a type predicate when a
      non-empty type is given, then a score predicate when a bound is given. */
  function BuildQuery(f: FilterArgs): (q: Query)
    ensures q.orderBy == ExperimentDateDesc
    ensures |q.filters| == (if HasTypeFilter(f) then 1 else 0) + (if f.scoreOver.Some? then 1 else 0)
    ensures HasTypeFilter(f) ==> q.filters[0] == TypeIs(f.experimentType.value)
    ensures f.scoreOver.Some? ==> q.filters[|q.filters| - 1] == ScoreAbove(f.scoreOver.value)
  {
    var byType := if HasTypeFilter(f) then [TypeIs(f.experimentType.value)] else [];
    var byScore := if f.scoreOver.Some? then [ScoreAbove(f.scoreOver.value)] else [];
    Query(byType + byScore, ExperimentDateDesc)
  }

  /** A query the database can run: every score bound is a number. */
  predicate WellFormed(q: Query) {
    forall i :: 0 <= i < |q.filters| ==> (q.filters[i].ScoreAbove? ==> q.filters[i].bound.IntLiteral?)
  }

  predicate Holds(p: Predicate, row: ExperimentRow) {
    match p
    case TypeIs(name) => Lower(row.typeName) == Lower(name)
    case ScoreAbove(bound) => bound.IntLiteral? && row.percentHundredths > 100 * bound.n
  }

  /** The rows a query selects: those satisfying every predicate. */
  predicate Selects(q: Query, row: ExperimentRow) {
    forall i :: 0 <= i < |q.filters| ==> Holds(q.filters[i], row)
  }

  /** Filters compose with AND: a row is selected exactly when it matches
      the type (case-insensitively) if one is given and its percentage is
      strictly above the bound if one is given. */
  lemma BuildQuerySelects(f: FilterArgs, row: ExperimentRow)
    requires f.scoreOver.Some? ==> f.scoreOver.value.IntLiteral?
    ensures WellFormed(BuildQuery(f))
    ensures Selects(BuildQuery(f), row) <==>
      && (HasTypeFilter(f) ==> Lower(row.typeName) == Lower(f.experimentType.value))
      && (f.scoreOver.Some? ==> row.percentHundredths > 100 * f.scoreOver.value.n)
  {
    var q := BuildQuery(f);
    if HasTypeFilter(f) && f.scoreOver.Some? {
      assert q.filters == [TypeIs(f.experimentType.value), ScoreAbove(f.scoreOver.value)];
    }
  }

  /** The database can run the assembled query exactly when the score
      bound, if any, is a number. */
  lemma BuildQueryWellFormed(f: FilterArgs)
    ensures WellFormed(BuildQuery(f)) <==> f.scoreOver.None? || f.scoreOver.value.IntLiteral?
  {
    var q := BuildQuery(f);
    if f.scoreOver.Some? && !f.scoreOver.value.IntLiteral? {
      assert q.filters[|q.filters| - 1].ScoreAbove?;
    }
  }

  /** No filters, no WHERE clause: every row is selected. */
  lemma NoFiltersSelectAll(row: ExperimentRow)
    ensures BuildQuery(FilterArgs(None, None)).filters == []
    ensures Selects(BuildQuery(FilterArgs(None, None)), row)
  {
  }

  /** The checks `get_experiments_endpoint` makes on the `type` argument: absent or empty
      passes unchanged, anything else must lower-case to a valid type name
      and is passed on lower-cased. */
  function CheckType(typeArg: Option<string>): (r: Result<Option<string>>)
    ensures r.Ok? <==> typeArg.None? || |typeArg.value| == 0 || IsValidTypeName(typeArg.value)
    ensures r.Err? ==> r.message == TypeMessage
    ensures r.Ok? && r.value.Some? && |r.value.value| > 0 ==>
      r.value.value in ValidTypes && typeArg.Some? && r.value.value == Lower(typeArg.value)
    ensures r.Ok? && (r.value.None? || |r.value.value| == 0) ==> r.value == typeArg
  {
    match typeArg
    case None => Ok(None)
    case Some(t) =>
      if |t| == 0 then Ok(typeArg)
      else if Lower(t) !in ValidTypes then Err(TypeMessage)
      else Ok(Some(Lower(t)))
  }

  /** A non-empty `score_over` must convert with `int()` to a value in
      [0, 100]. */
  predicate AcceptableScore(s: string) {
    ParseInt(s).Some? && 0 <= ParseInt(s).value <= 100
  }

  /** The `type` argument passes the checks of `get_experiments_endpoint`. */
  predicate TypeArgAcceptable(typeArg: Option<string>) {
    typeArg.None? || |typeArg.value| == 0 || IsValidTypeName(typeArg.value)
  }

  /** The `score_over` argument passes the checks of `get_experiments_endpoint`. */
  predicate ScoreArgAcceptable(scoreArg: Option<string>) {
    scoreArg.None? || |scoreArg.value| == 0 || AcceptableScore(scoreArg.value)
  }

  /** The `score_over` checks of `get_experiments_endpoint` as written: a non-empty `score_over` is
      converted and range-checked, but an empty one passes on unchanged, as
      text, and still counts as a bound for the query builder. */
  function CheckScoreAsWritten(scoreArg: Option<string>): (r: Result<Option<Operand>>)
    ensures r.Ok? <==> ScoreArgAcceptable(scoreArg)
    ensures r.Err? ==> r.message == ScoreMessage
    ensures scoreArg.None? ==> r == Ok(None)
    ensures scoreArg == Some("") ==> r == Ok(Some(RawText("")))
    ensures r.Ok? && scoreArg.Some? && |scoreArg.value| > 0 ==>
      && AcceptableScore(scoreArg.value)
      && r.value == Some(IntLiteral(ParseInt(scoreArg.value).value))
  {
    match scoreArg
    case None => Ok(None)
    case Some(s) =>
      if |s| == 0 then Ok(Some(RawText(s)))
      else if AcceptableScore(s) then Ok(Some(IntLiteral(ParseInt(s).value)))
      else Err(ScoreMessage)
  }

  /** The same checks with the evident intent: an absent or empty
      `score_over` means no score filter. */
  function CheckScore(scoreArg: Option<string>): (r: Result<Option<Operand>>)
    ensures r.Ok? <==> ScoreArgAcceptable(scoreArg)
    ensures r.Err? ==> r.message == ScoreMessage
    ensures r.Ok? && r.value.Some? ==>
      scoreArg.Some? && AcceptableScore(scoreArg.value)
      && r.value.value == IntLiteral(ParseInt(scoreArg.value).value)
      && 0 <= r.value.value.n <= 100
    ensures r.Ok? && r.value.None? ==> scoreArg.None? || scoreArg.value == ""
  {
    match scoreArg
    case None => Ok(None)
    case Some(s) =>
      if |s| == 0 then Ok(None)
      else if AcceptableScore(s) then Ok(Some(IntLiteral(ParseInt(s).value)))
      else Err(ScoreMessage)
  }

  /** The type is checked first; only then the score. */
  function CheckFilters(typeArg: Option<string>, scoreArg: Option<string>, intended: bool): Result<FilterArgs> {
    match CheckType(typeArg)
    case Err(m) => Err(m)
    case Ok(t) =>
      match (if intended then CheckScore(scoreArg) else CheckScoreAsWritten(scoreArg))
      case Err(m) => Err(m)
      case Ok(s) => Ok(FilterArgs(t, s))
  }

  /** The endpoint as written: 400 on a bad argument; otherwise the query is
      handed to the database, which rejects a malformed one with an error
      nothing catches. */
  function ListQueryAsWritten(typeArg: Option<string>, scoreArg: Option<string>): (reply: Reply<Query>)
    ensures reply.status in {Ok200, BadRequest400, ServerError500}
    ensures reply.status == BadRequest400 <==> !(TypeArgAcceptable(typeArg) && ScoreArgAcceptable(scoreArg))
    ensures reply.status == ServerError500 <==> TypeArgAcceptable(typeArg) && scoreArg == Some("")
    ensures reply.status == ServerError500 ==> reply.body.Unhandled?
    ensures scoreArg != Some("") || !TypeArgAcceptable(typeArg) ==> reply == ListQuery(typeArg, scoreArg)
  {
    match CheckFilters(typeArg, scoreArg, false)
    case Err(m) => Reply(BadRequest400, Error(m))
    case Ok(f) =>
      var q := BuildQuery(f);
      BuildQueryWellFormed(f);
      if WellFormed(q) then Reply(Ok200, Payload(q))
      else Reply(ServerError500, Unhandled("SyntaxError: syntax error at or near \"ORDER\""))
  }

  /** An empty `score_over` (`?score_over=`) gets past validation, yields a
      score comparison with nothing on its right-hand side, and the client
      gets a server error. */
  lemma EmptyScoreOverIsMalformed(typeArg: Option<string>)
    requires TypeArgAcceptable(typeArg)
    ensures CheckFilters(typeArg, Some(""), false).Ok?
    ensures !WellFormed(BuildQuery(CheckFilters(typeArg, Some(""), false).value))
    ensures ListQueryAsWritten(typeArg, Some("")).status == ServerError500
  {
    var q := BuildQuery(CheckFilters(typeArg, Some(""), false).value);
    assert q.filters[|q.filters| - 1] == ScoreAbove(RawText(""));
  }

  /** The endpoint with an empty `score_over` read as no filter. */
  function ListQuery(typeArg: Option<string>, scoreArg: Option<string>): (reply: Reply<Query>)
    ensures reply.status == Ok200 || reply.status == BadRequest400
    ensures reply.status == Ok200 <==> TypeArgAcceptable(typeArg) && ScoreArgAcceptable(scoreArg)
    ensures reply.status == BadRequest400 ==> reply.body.Error?
    ensures reply.status == Ok200 ==> reply.body.Payload? && WellFormed(reply.body.value)
    ensures reply.status == BadRequest400 && !TypeArgAcceptable(typeArg) ==> reply.body.message == TypeMessage
    ensures reply.status == BadRequest400 && TypeArgAcceptable(typeArg) ==> reply.body.message == ScoreMessage
  {
    match CheckFilters(typeArg, scoreArg, true)
    case Err(m) => Reply(BadRequest400, Error(m))
    case Ok(f) =>
      BuildQuerySelects(f, ExperimentRow("", 0));
      Reply(Ok200, Payload(BuildQuery(f)))
  }

  /** End to end: an accepted request selects exactly the rows of the
      requested type (ignoring case) whose percentage is strictly above
      `score_over`. */
  lemma ListQuerySelects(typeArg: Option<string>, scoreArg: Option<string>, row: ExperimentRow)
    requires ListQuery(typeArg, scoreArg).status == Ok200
    ensures Selects(ListQuery(typeArg, scoreArg).body.value, row) <==>
      && (typeArg.Some? && |typeArg.value| > 0 ==> Lower(row.typeName) == Lower(typeArg.value))
      && (scoreArg.Some? && |scoreArg.value| > 0 ==> row.percentHundredths > 100 * ParseInt(scoreArg.value).value)
  {
    var f := CheckFilters(typeArg, scoreArg, true).value;
    BuildQuerySelects(f, row);
    if typeArg.Some? {
      LowerIdempotent(typeArg.value);
    }
  }

  /** The type argument is case-insensitive: "Intelligence" and
      "intelligence" give the same reply. */
  lemma TypeArgIgnoresCase(t: string, u: string, scoreArg: Option<string>)
    requires |t| > 0 && |u| > 0 && Lower(t) == Lower(u)
    ensures ListQuery(Some(t), scoreArg) == ListQuery(Some(u), scoreArg)
  {
  }

  /** `score_over=100` is a strict bound: no percentage up to 100% is
      selected. */
  lemma ScoreOverHundredSelectsNothing(typeArg: Option<string>, row: ExperimentRow)
    requires ListQuery(typeArg, Some("100")).status == Ok200
    requires row.percentHundredths <= 10000
    ensures !Selects(ListQuery(typeArg, Some("100")).body.value, row)
  {
    ParseIntRoundTrip(100);
    assert IntToString(100) == "100";
    ListQuerySelects(typeArg, Some("100"), row);
  }

  /** A `score_over` padded with an information separator is refused with
      the `score_over` message, as `int()` raises on it. */
  lemma SeparatorPaddedScoreRefused(typeArg: Option<string>)
    requires TypeArgAcceptable(typeArg)
    ensures ListQuery(typeArg, Some("\U{1c}5")) == Reply(BadRequest400, Error(ScoreMessage))
  {
    ParseIntRefusesSeparatorPadding();
  }
}

=== FILE: list_subjects.dfy ===
/** GET /subject: every subject, most recently born first. Python's `sorted`
    with `reverse=True` is stable, so subjects born on the same day keep the
    order in which the store returned them. */
module ListSubjects {
  import opened Dates
  import opened Records
  import opened Http

  predicate BornNoEarlier(a: Subject, b: Subject) {
    OnOrBefore(b.dateOfBirth, a.dateOfBirth)
  }

  /** Non-increasing in date of birth. */
  predicate SortedByBirthDesc(s: seq<Subject>) {
    forall i, j :: 0 <= i < j < |s| ==> BornNoEarlier(s[i], s[j])
  }

  /** The subjects of `s` born on `d`, in their order in `s`. */
  function BornOn(s: seq<Subject>, d: Date): (r: seq<Subject>)
    ensures |r| <= |s|
    ensures forall x :: x in r <==> x in s && x.dateOfBirth == d
  {
    if s == [] then []
    else (if s[0].dateOfBirth == d then [s[0]] else []) + BornOn(s[1..], d)
  }

  /** A subject born no earlier than everyone in a sorted sequence can lead it. */
  lemma PrependSorted(y: Subject, s: seq<Subject>)
    requires SortedByBirthDesc(s)
    requires forall k :: 0 <= k < |s| ==> BornNoEarlier(y, s[k])
    ensures SortedByBirthDesc([y] + s)
  {
    var r := [y] + s;
    forall i, j | 0 <= i < j < |r|
      ensures BornNoEarlier(r[i], r[j])
    {
      if i > 0 {
        assert r[i] == s[i - 1] && r[j] == s[j - 1];
      } else {
        assert r[j] == s[j - 1];
      }
    }
  }

  /** Places `x` in front of the first subject born no later than it, so that
      among equal birth dates it stays ahead of those already placed. */
  function Insert(x: Subject, t: seq<Subject>): (r: seq<Subject>)
    requires SortedByBirthDesc(t)
    ensures multiset(r) == multiset(t) + multiset{x}
    ensures forall k :: 0 <= k < |r| ==> r[k] == x || r[k] in t
    ensures SortedByBirthDesc(r)
  {
    if t == [] || BornNoEarlier(x, t[0]) then
      assert forall k :: 0 <= k < |t| ==> BornNoEarlier(x, t[k]) by {
        forall k | 0 <= k < |t|
          ensures BornNoEarlier(x, t[k])
        {
          if k > 0 {
            OnOrBeforeTotalOrder(t[k].dateOfBirth, t[0].dateOfBirth, x.dateOfBirth);
          }
        }
      }
      PrependSorted(x, t);
      [x] + t
    else
      var rest := Insert(x, t[1..]);
      assert t == [t[0]] + t[1..];
      assert forall k :: 0 <= k < |rest| ==> BornNoEarlier(t[0], rest[k]) by {
        OnOrBeforeTotalOrder(x.dateOfBirth, t[0].dateOfBirth, x.dateOfBirth);
        forall k | 0 <= k < |rest|
          ensures BornNoEarlier(t[0], rest[k])
        {
          if rest[k] != x {
            var m :| 0 <= m < |t[1..]| && t[1..][m] == rest[k];
            assert t[m + 1] == rest[k];
          }
        }
      }
      PrependSorted(t[0], rest);
      [t[0]] + rest
  }

  /** The stable, date-of-birth-descending sort of `s`. */
  function SortByBirthDesc(s: seq<Subject>): (r: seq<Subject>)
    ensures multiset(r) == multiset(s)
    ensures SortedByBirthDesc(r)
  {
    if s == [] then []
    else
      assert s == [s[0]] + s[1..];
      Insert(s[0], SortByBirthDesc(s[1..]))
  }

  /** Unfolds `BornOn` once at the front. */
  lemma BornOnCons(y: Subject, s: seq<Subject>, d: Date)
    ensures BornOn([y] + s, d) == (if y.dateOfBirth == d then [y] else []) + BornOn(s, d)
  {
    assert ([y] + s)[1..] == s;
  }

  lemma {:induction false} InsertKeepsBirthOrder(x: Subject, t: seq<Subject>, d: Date)
    requires SortedByBirthDesc(t)
    ensures BornOn(Insert(x, t), d) == BornOn([x] + t, d)
  {
    if t == [] || BornNoEarlier(x, t[0]) {
    } else {
      var rest := Insert(x, t[1..]);
      var preT := if t[0].dateOfBirth == d then [t[0]] else [];
      var preX := if x.dateOfBirth == d then [x] else [];
      assert t[0].dateOfBirth != x.dateOfBirth;
      assert preT + preX == preX + preT;
      calc {
        BornOn(Insert(x, t), d);
        { BornOnCons(t[0], rest, d); }
        preT + BornOn(rest, d);
        { InsertKeepsBirthOrder(x, t[1..], d); BornOnCons(x, t[1..], d); }
        preT + (preX + BornOn(t[1..], d));
        preX + (preT + BornOn(t[1..], d));
        { assert t == [t[0]] + t[1..]; BornOnCons(t[0], t[1..], d); }
        preX + BornOn(t, d);
        { BornOnCons(x, t, d); }
        BornOn([x] + t, d);
      }
    }
  }

  /** Stability: for every birth date, the subjects born on it appear in the
      output in exactly the order they had in the input. */
  lemma {:induction false} SortIsStable(s: seq<Subject>, d: Date)
    ensures BornOn(SortByBirthDesc(s), d) == BornOn(s, d)
  {
    if s != [] {
      SortIsStable(s[1..], d);
      InsertKeepsBirthOrder(s[0], SortByBirthDesc(s[1..]), d);
      assert ([s[0]] + SortByBirthDesc(s[1..]))[1..] == SortByBirthDesc(s[1..]);
    }
  }

  /** In a sorted sequence the first subject is born no earlier than any
      subject of the sequence. */
  lemma FirstIsLatest(s: seq<Subject>, x: Subject)
    requires SortedByBirthDesc(s) && x in s
    ensures BornNoEarlier(s[0], x)
  {
    var i :| 0 <= i < |s| && s[i] == x;
    if i > 0 {
      assert BornNoEarlier(s[0], s[i]);
    } else {
      OnOrBeforeTotalOrder(x.dateOfBirth, x.dateOfBirth, x.dateOfBirth);
    }
  }

  /** Two sorted permutations of each other start with the same birth date. */
  lemma SameFirstBirthDate(a: seq<Subject>, b: seq<Subject>)
    requires a != []
    requires multiset(a) == multiset(b)
    requires SortedByBirthDesc(a) && SortedByBirthDesc(b)
    ensures b != [] && a[0].dateOfBirth == b[0].dateOfBirth
  {
    assert a[0] in multiset(b);
    assert b != [];
    assert b[0] in multiset(a);
    FirstIsLatest(b, a[0]);
    FirstIsLatest(a, b[0]);
    OnOrBeforeTotalOrder(a[0].dateOfBirth, b[0].dateOfBirth, a[0].dateOfBirth);
  }

  /** Two sequences that start on the same birth date and agree on who was
      born on it start with the same subject. */
  lemma SameFirstSubject(a: seq<Subject>, b: seq<Subject>)
    requires a != [] && b != [] && a[0].dateOfBirth == b[0].dateOfBirth
    requires BornOn(a, a[0].dateOfBirth) == BornOn(b, a[0].dateOfBirth)
    ensures a[0] == b[0]
  {
    var d0 := a[0].dateOfBirth;
    assert a == [a[0]] + a[1..];
    assert b == [b[0]] + b[1..];
    BornOnCons(a[0], a[1..], d0);
    BornOnCons(b[0], b[1..], d0);
    assert BornOn(a, d0)[0] == a[0];
    assert BornOn(b, d0)[0] == b[0];
  }

  /** Removing a common first subject keeps the stability premise. */
  lemma SameTailsBornOn(a: seq<Subject>, b: seq<Subject>, d: Date)
    requires a != [] && b != [] && a[0] == b[0]
    requires BornOn(a, d) == BornOn(b, d)
    ensures BornOn(a[1..], d) == BornOn(b[1..], d)
  {
    var pre := if a[0].dateOfBirth == d then [a[0]] else [];
    assert a == [a[0]] + a[1..] && b == [b[0]] + b[1..];
    BornOnCons(a[0], a[1..], d);
    BornOnCons(b[0], b[1..], d);
    assert (pre + BornOn(a[1..], d))[|pre|..] == BornOn(a[1..], d);
    assert (pre + BornOn(b[1..], d))[|pre|..] == BornOn(b[1..], d);
  }

  /** Any two orderings that are permutations of each other, both sorted by
      birth date descending and both stable, are the same sequence. */
  lemma {:induction false} StableSortUnique(a: seq<Subject>, b: seq<Subject>)
    requires multiset(a) == multiset(b)
    requires SortedByBirthDesc(a) && SortedByBirthDesc(b)
    requires forall d :: BornOn(a, d) == BornOn(b, d)
    ensures a == b
    decreases |a|
  {
    if a != [] {
      SameFirstBirthDate(a, b);
      SameFirstSubject(a, b);
      forall d
        ensures BornOn(a[1..], d) == BornOn(b[1..], d)
      {
        SameTailsBornOn(a, b, d);
      }
      assert a == [a[0]] + a[1..] && b == [b[0]] + b[1..];
      assert multiset(a[1..]) == multiset(a) - multiset{a[0]};
      assert multiset(b[1..]) == multiset(b) - multiset{b[0]};
      StableSortUnique(a[1..], b[1..]);
    }
  }

  /** Every birth date reads back through `TO_CHAR` and `strptime`: the year
      is within 1 to 9999 (the day is always one of its month). */
  predicate BirthDatesReadable(s: seq<Subject>) {
    forall i :: 0 <= i < |s| ==> Valid(s[i].dateOfBirth)
  }

  /** The GET /subject endpoint. The sort key is the birth date re-read with
      `strptime`; a date outside the years 1 to 9999 renders as text it
      rejects, and the `ValueError` is not caught. */
  function GetSubjects(st: Store): (reply: Reply<seq<Subject>>)
    ensures reply.status == Ok200 || reply.status == ServerError500
    ensures reply.status == Ok200 <==> BirthDatesReadable(st.subjects)
    ensures reply.status == ServerError500 ==> reply.body.Unhandled?
    ensures reply.status == Ok200 ==>
      && reply.body.Payload?
      && multiset(reply.body.value) == multiset(st.subjects)
      && SortedByBirthDesc(reply.body.value)
      && forall d :: BornOn(reply.body.value, d) == BornOn(st.subjects, d)
  {
    if !BirthDatesReadable(st.subjects) then
      Reply(ServerError500, Unhandled("ValueError: time data does not match format '%Y-%m-%d'"))
    else
      var sorted := SortByBirthDesc(st.subjects);
      assert forall d :: BornOn(sorted, d) == BornOn(st.subjects, d) by {
        forall d
          ensures BornOn(sorted, d) == BornOn(st.subjects, d)
        {
          SortIsStable(st.subjects, d);
        }
      }
      Reply(Ok200, Payload(sorted))
  }
}

=== FILE: outcomes.dfy ===
/** Optional values and validation results shared by the whole model. */
module Outcomes {

  /** A value that may be absent, like a Python `None`. */
  datatype Option<+T> = None | Some(value: T)

  /** The outcome of a validation step: a value, or the message the client is sent. */
  datatype Result<+T> = Ok(value: T) | Err(message: string)
}

=== FILE: records.dfy ===
/** The entities of the experiments database and an abstract store holding
    them: subjects and experiment types are reference data read in table
    order, experiments are keyed by their identifier. */
module Records {
  import opened Text
  import opened Dates

  /** The experiment type names the API accepts, in lower case. */
  const ValidTypes: seq<string> := ["intelligence", "obedience", "aggression"]

  /** A type name is accepted when its lower-cased form is one of `ValidTypes`. */
  predicate IsValidTypeName(s: string) {
    Lower(s) in ValidTypes
  }

  /** A subject row joined with its species name. */
  datatype Subject = Subject(subjectId: int, subjectName: string, speciesName: string, dateOfBirth: Date)

  datatype ExperimentType = ExperimentType(typeId: int, typeName: string, maxScore: int)

  datatype Experiment = Experiment(subjectId: int, typeId: int, score: int, date: Date)

  datatype Store = Store(subjects: seq<Subject>, types: seq<ExperimentType>, experiments: map<int, Experiment>)

  predicate HasSubject(st: Store, id: int) {
    exists i :: 0 <= i < |st.subjects| && st.subjects[i].subjectId == id
  }

  predicate HasType(st: Store, id: int) {
    exists i :: 0 <= i < |st.types| && st.types[i].typeId == id
  }

  /** Foreign-key integrity: every experiment names an existing subject and
      an existing experiment type. */
  predicate ReferencesResolve(st: Store) {
    forall id :: id in st.experiments ==>
      HasSubject(st, st.experiments[id].subjectId) && HasType(st, st.experiments[id].typeId)
  }

  /** Only the experiments change; the reference data stays as it was. */
  predicate SameReferenceData(a: Store, b: Store) {
    a.subjects == b.subjects && a.types == b.types
  }
}

=== FILE: text.dfy ===
/** The pieces of Python's text handling the API leans on: `str.lower`,
    `int(str)` in base 10 with the whitespace it skips, and decimal
    rendering of integers. */
module Text {
  import opened Outcomes

  predicate IsDigit(c: char) { '0' <= c <= '9' }

  predicate IsUpper(c: char) { 'A' <= c <= 'Z' }

  /** The ASCII whitespace `int()` skips around a number (C `isspace`):
      space and \t \n \v \f \r. The separators \x1c through \x1f, which
      `str.isspace` also counts, are not skipped. */
  predicate IsSpace(c: char) { c == ' ' || 9 <= c as int <= 13 }

  function DigitOf(c: char): int { c as int - '0' as int }

  function DigitChar(k: int): (c: char)
    requires 0 <= k < 10
    ensures IsDigit(c) && DigitOf(c) == k
  {
    ('0' as int + k) as char
  }

  function LowerChar(c: char): char {
    if IsUpper(c) then (c as int - 'A' as int + 'a' as int) as char else c
  }

  /** `str.lower` on ASCII letters; every other character is left alone. */
  function Lower(s: string): (r: string)
    ensures |r| == |s|
    ensures forall i :: 0 <= i < |r| ==> !IsUpper(r[i])
    ensures forall i :: 0 <= i < |r| ==> LowerChar(r[i]) == LowerChar(s[i])
  {
    seq(|s|, i requires 0 <= i < |s| => LowerChar(s[i]))
  }

  /** Lower-casing an already lower-cased text changes nothing. */
  lemma LowerIdempotent(s: string)
    ensures Lower(Lower(s)) == Lower(s)
  {
  }

  /** Drops leading whitespace: the result is the longest suffix of `s` that
      does not start with a space, and everything removed was whitespace. */
  function StripLeft(s: string): (r: string)
    ensures |r| <= |s| && r == s[|s| - |r|..]
    ensures r == [] || !IsSpace(r[0])
    ensures forall i :: 0 <= i < |s| - |r| ==> IsSpace(s[i])
    decreases |s|
  {
    if |s| > 0 && IsSpace(s[0]) then StripLeft(s[1..]) else s
  }

  /** Drops trailing whitespace, symmetrically to `StripLeft`. */
  function StripRight(s: string): (r: string)
    ensures |r| <= |s| && r == s[..|r|]
    ensures r == [] || !IsSpace(r[|r| - 1])
    ensures forall i :: |r| <= i < |s| ==> IsSpace(s[i])
    decreases |s|
  {
    if |s| > 0 && IsSpace(s[|s| - 1]) then StripRight(s[..|s| - 1]) else s
  }

  /** Drops the whitespace `int()` skips on both sides. */
  function Strip(s: string): string {
    StripRight(StripLeft(s))
  }

  /** The digit part `int()` accepts in base 10: ASCII digits, with single
      underscores allowed only between two digits. */
  predicate IsDigitGroups(s: string) {
    && |s| > 0
    && IsDigit(s[0])
    && IsDigit(s[|s| - 1])
    && (forall i :: 0 <= i < |s| ==> IsDigit(s[i]) || s[i] == '_')
    && (forall i :: 0 <= i < |s| - 1 ==> s[i] == '_' ==> s[i + 1] != '_')
  }

  /** The base-10 value of the digits of `s`, skipping every other character
      (only the underscores of a digit group are ever skipped). */
  function DecimalValue(s: string): nat
    decreases |s|
  {
    if s == [] then 0
    else if IsDigit(s[|s| - 1]) then 10 * DecimalValue(s[..|s| - 1]) + DigitOf(s[|s| - 1])
    else DecimalValue(s[..|s| - 1])
  }

  /** A signed digit group, the text `int()` converts once whitespace is gone. */
  function ParseNumber(t: string): (r: Option<int>)
    ensures r.Some? ==> exists i :: 0 <= i < |t| && IsDigit(t[i])
  {
    if |t| > 0 && t[0] == '-' && IsDigitGroups(t[1..]) then
      assert IsDigit(t[1]);
      Some(0 - DecimalValue(t[1..]))
    else if |t| > 0 && t[0] == '+' && IsDigitGroups(t[1..]) then
      assert IsDigit(t[1]);
      Some(DecimalValue(t[1..]))
    else if IsDigitGroups(t) then
      assert IsDigit(t[0]);
      Some(DecimalValue(t))
    else None
  }

  /** Python's `int(s)` for a string `s`: surrounding whitespace is ignored,
      then an optional sign and a digit group must make up the rest; `None`
      stands for the `ValueError` it raises otherwise. */
  function ParseInt(s: string): (r: Option<int>)
    ensures r.Some? ==> exists i :: 0 <= i < |s| && IsDigit(s[i])
  {
    var t := Strip(s);
    var k := |s| - |StripLeft(s)|;
    assert forall i :: 0 <= i < |t| ==> t[i] == s[k + i];
    ParseNumber(t)
  }

  /** Decimal rendering of a natural number (`str(n)`): digits only, no
      leading zero, and reading it back yields `n`. */
  function NatToString(n: nat): (r: string)
    ensures |r| > 0 && forall i :: 0 <= i < |r| ==> IsDigit(r[i])
    ensures r[0] != '0' || n == 0
    ensures DecimalValue(r) == n
  {
    if n < 10 then [DigitChar(n)]
    else
      var front := NatToString(n / 10);
      var r := front + [DigitChar(n % 10)];
      assert r[..|r| - 1] == front;
      r
  }

  /** `str(i)` for any integer. */
  function IntToString(i: int): (r: string)
    ensures |r| > 0 && !IsSpace(r[0]) && !IsSpace(r[|r| - 1])
  {
    if i < 0 then "-" + NatToString(-i) else NatToString(i)
  }

  /** A text that neither starts nor ends with whitespace is its own strip. */
  lemma StripUntrimmed(s: string)
    requires |s| > 0 && !IsSpace(s[0]) && !IsSpace(s[|s| - 1])
    ensures Strip(s) == s
  {
  }

  /** `int(str(i)) == i`: the parser reads back every rendered integer. */
  lemma ParseIntRoundTrip(i: int)
    ensures ParseInt(IntToString(i)) == Some(i)
  {
    var s := IntToString(i);
    StripUntrimmed(s);
    if i < 0 {
      assert s[1..] == NatToString(-i);
    }
  }

  /** Trailing whitespace does not reach the stripped text. */
  lemma {:induction false} StripAppendSpace(s: string, c: char)
    requires IsSpace(c)
    ensures Strip(s + [c]) == Strip(s)
    decreases |s|
  {
    if s == [] {
      assert StripLeft([c]) == StripLeft([]);
    } else if IsSpace(s[0]) {
      assert (s + [c])[1..] == s[1..] + [c];
      StripAppendSpace(s[1..], c);
    } else {
      assert StripLeft(s + [c]) == s + [c];
      assert (s + [c])[..|s + [c]| - 1] == s;
    }
  }

  /** What `int()` accepts, once whitespace is stripped, is made of digits
      and underscores, with at most a sign in front. */
  lemma ParseIntAcceptsOnlyNumerals(s: string)
    requires ParseInt(s).Some?
    ensures var t := Strip(s);
      && |t| > 0
      && forall i :: 0 <= i < |t| ==>
           IsDigit(t[i]) || (t[i] == '_' && 0 < i < |t| - 1) || (i == 0 && (t[i] == '-' || t[i] == '+'))
  {
  }

  /** A text with no whitespace at either end reaches the number parser
      unchanged. */
  lemma ParseIntOfTrimmed(t: string)
    requires |t| > 0 && !IsSpace(t[0]) && !IsSpace(t[|t| - 1])
    ensures ParseInt(t) == ParseNumber(t)
  {
    StripUntrimmed(t);
  }

  /** In the text `int()` converts once surrounding whitespace is stripped,
      a character past the first that is neither a digit nor an underscore
      (a decimal point, an exponent, an inner blank) makes it refuse. */
  lemma RefusedByStray(t: string, i: nat)
    requires 0 < i < |t| && !IsDigit(t[i]) && t[i] != '_'
    ensures ParseNumber(t) == None
  {
    assert t[1..][i - 1] == t[i];
  }

  /** Two underscores in a row make `int()` refuse. */
  lemma RefusedByDoubleUnderscore(t: string, i: nat)
    requires i + 1 < |t| && t[i] == '_' && t[i + 1] == '_'
    ensures ParseNumber(t) == None
  {
    if i > 0 {
      assert t[1..][i - 1] == '_' && t[1..][i] == '_';
    }
  }

  /** Texts `int()` refuses: a fraction, an exponent, a blank inside the
      number, a doubled underscore. */
  lemma ParseIntRefusesNonIntegers()
    ensures ParseInt("1.5") == None && ParseInt("1e2") == None
    ensures ParseInt("5 5") == None && ParseInt("1__0") == None
  {
    ParseIntOfTrimmed("1.5");
    RefusedByStray("1.5", 1);
    ParseIntOfTrimmed("1e2");
    RefusedByStray("1e2", 1);
    ParseIntOfTrimmed("5 5");
    RefusedByStray("5 5", 1);
    ParseIntOfTrimmed("1__0");
    RefusedByDoubleUnderscore("1__0", 1);
  }

  /** A digit group is read as its decimal value, after a plus sign too,
      and negated after a minus sign. */
  lemma ReadsSignedDigitGroups(t: string)
    requires IsDigitGroups(t)
    ensures ParseNumber(t) == Some(DecimalValue(t))
    ensures ParseNumber("+" + t) == Some(DecimalValue(t))
    ensures ParseNumber("-" + t) == Some(0 - DecimalValue(t))
  {
    assert ("+" + t)[1..] == t;
    assert ("-" + t)[1..] == t;
  }

  /** `int()` does not skip the information separators \x1c through \x1f,
      although `str.isspace` counts them as whitespace. */
  lemma ParseIntRefusesSeparatorPadding()
    ensures ParseInt("\U{1c}5") == None && ParseInt("5\U{1f}") == None
  {
    ParseIntOfTrimmed("\U{1c}5");
    ParseIntOfTrimmed("5\U{1f}");
    RefusedByStray("5\U{1f}", 1);
  }

  /** `int()` reads a plus sign with a leading zero. */
  lemma ParseIntReadsPlusSign()
    ensures ParseInt("+07") == Some(7)
  {
    assert "07"[..1] == "0" && "0"[..0] == [];
    assert DecimalValue("07") == 7;
    ReadsSignedDigitGroups("07");
    assert "+" + "07" == "+07";
    ParseIntOfTrimmed("+07");
  }

  /** `int()` reads a minus sign. */
  lemma ParseIntReadsMinusSign()
    ensures ParseInt("-3") == Some(-3)
  {
    assert "3"[..0] == [];
    ReadsSignedDigitGroups("3");
    assert "-" + "3" == "-3";
    ParseIntOfTrimmed("-3");
  }

  /** `int()` skips a digit separator. */
  lemma ParseIntReadsSeparator()
    ensures ParseInt("1_0") == Some(10)
  {
    assert "1_0"[..2] == "1_" && "1_"[..1] == "1" && "1"[..0] == [];
    assert DecimalValue("1_0") == 10;
    ReadsSignedDigitGroups("1_0");
    ParseIntOfTrimmed("1_0");
  }

  /** `int()` ignores whitespace on either side of the number. */
  lemma ParseIntIgnoresPadding(s: string, c: char)
    requires IsSpace(c)
    ensures ParseInt([c] + s) == ParseInt(s)
    ensures ParseInt(s + [c]) == ParseInt(s)
  {
    assert ([c] + s)[1..] == s;
    StripAppendSpace(s, c);
  }
}
